=== FILE: README.md ===
# Minimal-contour widget: anchor session and undo ledger

This project models the interactive core of the minimal-contour annotation widget
of napari-nD-annotator (`MinimalContourWidget`). It covers two parts:

- **The anchor-point contour session.** The user places anchors on an image. Each
  cursor move refreshes two preview segments, `from_e` between the last anchor and
  the cursor and `to_s` between the cursor and the first anchor. A minimal-path
  solver or, with Ctrl held, a straight-line drawer produces them. With Ctrl held,
  `from_e` is proved to run from the last anchor to the cursor and `to_s` from the
  cursor to the first anchor. On the solver path the direction is whatever the
  solver returns, flipped. Each accepted anchor
  splices one preview segment onto the output contour: at the back for a plain
  click, at the front for a Shift click. A right click takes the last splice back.
  A double click closes the contour and commits it.
- **The single-level undo ledger.** A commit writes the rasterised contour into a
  labels layer under the selected label. Before writing, it records the previous
  values of the layer, keyed by layer. Ctrl+Z writes those values back once.

Each handler is a pure function over immutable values:

- `Geometry`: points with `real` coordinates, banker's rounding (`np.round`),
  truncation (`int()`), clipping, the point triangle and the solver's search box.
- `ContourSession`: the session record and the handlers `clear_all`, `data_event`,
  `on_right_click` and `on_mouse_move`. It also holds a trace lemma over whole event
  sequences.
- `LabelLedger`: labels arrays as `map<Index, int>` over N-d indices, with the
  displayed slice embedded at the current step. It holds `set_mask`,
  `ctrl_z_callback` and `on_mouse_wheel`.
- `ContourWidget`: the checks of `points_to_mask`, and `on_double_click` through to
  `set_mask`.

The solver, `skimage.draw.line`, `polygon2mask` and the Fourier smoothing are
function parameters. The model fixes only which inputs they receive and where
their results go.

Behaviour kept as the code has it:

- `clear_all` leaves `last_segment_length`, `last_added_with_shift` and the
  pending-removal flag alone.
- A right click with no remembered length still sets the pending flag, so the
  point napari adds for that click is dropped.
- The duplicate test compares the clipped new anchor with the previous anchor as
  stored. Both are rounded half-to-even.
- The cursor-move guard checks the image bounds only, not the search box.
- Line 566 records the anchor count before the duplicate check at 570. After a
  dropped duplicate, a take-back right click and then an ordinary click make the
  session clear itself. `ContourSession.DuplicateThenTakeBackClearsSession`
  exhibits this.
- A right click that removes the last remaining anchor makes line 612 index an
  empty array. The model stops the handler there: anchors and output are already
  cut, and the triangle and the remembered length stay as they were.

## Model

| member | source | states |
|---|---|---|
| Geometry.RoundHalfEven | src/napari_nd_annotator/_widgets/minimal_contour_widget.py:570 | the rounding used by the duplicate test lies within 1/2 of its argument, and ties go to the even integer |
| Geometry.RoundHalfEvenUnique | src/napari_nd_annotator/_widgets/minimal_contour_widget.py:570 | that rounding is the unique nearest integer, with ties to the even one |
| Geometry.Trunc | src/napari_nd_annotator/_widgets/minimal_contour_widget.py:399-400 | `astype(int)` / `int()` truncates toward zero: for a non-negative value it is the floor |
| Geometry.ClipCoord | src/napari_nd_annotator/_widgets/minimal_contour_widget.py:569 | `np.clip(x, 0, hi)` lands in [0, hi], fixes in-range values, and sends values below to 0 and above to hi |
| Geometry.ClipCoordMonotone | src/napari_nd_annotator/_widgets/minimal_contour_widget.py:399-400 | clipping preserves the order of two coordinates |
| Geometry.ClipPoint | src/napari_nd_annotator/_widgets/minimal_contour_widget.py:569 | a new anchor is clipped coordinate by coordinate into [0, height] x [0, width]; the upper bound is the shape itself; points already inside are unchanged |
| Geometry.ClipPointIdempotent | src/napari_nd_annotator/_widgets/minimal_contour_widget.py:569 | clipping an anchor twice equals clipping it once |
| Geometry.UnsetSlotOutOfBounds | src/napari_nd_annotator/_widgets/minimal_contour_widget.py:75 | a triangle with a -1 slot never passes the bounds check, whatever the image shape |
| Geometry.BoxAroundPoints | src/napari_nd_annotator/_widgets/minimal_contour_widget.py:43-49 | the unclipped box has the same margin on all four sides, 0.1 x the ROW extent + 10; it encloses every triangle point with at least 10 to spare |
| Geometry.ColumnPaddingIgnoresColumns | src/napari_nd_annotator/_widgets/minimal_contour_widget.py:47-48 | two triangles with equal rows get equal column margins, however different their columns are |
| Geometry.SolverBox | src/napari_nd_annotator/_widgets/minimal_contour_widget.py:397-401 | the box is `BoxAroundPoints` with each bound clipped to [0, shape] and truncated; every bound lies in [0, shape] and from <= to on both axes; for an in-bounds triangle the box contains the pixel of each triangle point |
| Geometry.ClipBound | src/napari_nd_annotator/_widgets/minimal_contour_widget.py:399-400 | one bound is 0 at or below 0, the shape at or above it, and the truncated value in between |
| Geometry.SolverBoxKeepsPadding | src/napari_nd_annotator/_widgets/minimal_contour_widget.py:43-49 | away from the border the box keeps its padding: the triangle (50,50), (51,51), (52,52) in a 1000 x 1000 image gets the box from 39 to 62 |
| ContourSession.RotateRight | src/napari_nd_annotator/_widgets/minimal_contour_widget.py:579 | `np.roll(data, 1, 0)` is a permutation that moves the last anchor to the front and keeps the rest in order |
| ContourSession.Reverse | src/napari_nd_annotator/_widgets/minimal_contour_widget.py:456-458 | `np.flipud` keeps the length and reverses the order element by element |
| ContourSession.DropBack | src/napari_nd_annotator/_widgets/minimal_contour_widget.py:611 | `output[:-n]` removes exactly the last n points when 0 < n <= length, and everything when n is 0 or longer than the list |
| ContourSession.DropFront | src/napari_nd_annotator/_widgets/minimal_contour_widget.py:608 | `output[n:]` removes exactly the first n points when n <= length, and everything otherwise |
| ContourSession.ClearAll | src/napari_nd_annotator/_widgets/minimal_contour_widget.py:313-324 | clearing empties output, anchors, `from_e` and `to_s`, sets every triangle slot to -1 and the count to 0; it does not touch the last segment length, the shift flag or the pending-removal flag |
| ContourSession.ClearAllIdempotent | src/napari_nd_annotator/_widgets/minimal_contour_widget.py:316-324 | clearing twice equals clearing once |
| ContourSession.InitialConsistent | src/napari_nd_annotator/_widgets/minimal_contour_widget.py:75-79 | the constructor's state is already a cleared session and satisfies the session invariant |
| ContourSession.Splice | src/napari_nd_annotator/_widgets/minimal_contour_widget.py:575-590 | a shift add rotates the new anchor to the front, sets the shift flag even for an empty `to_s`, and prepends a non-empty `to_s`; a plain add appends a non-empty `from_e`; an empty segment leaves output and length alone; the triangle's ends then follow the anchors |
| ContourSession.DataEvent | src/napari_nd_annotator/_widgets/minimal_contour_widget.py:552-590 | a pending removal drops the event's last point and changes nothing else, the shift flag included; a shrunk point list clears the session; otherwise the count is recorded first; the output only ever gains `from_e` at the back or `to_s` at the front, or is cleared |
| ContourSession.DuplicateAnchorDropped | src/napari_nd_annotator/_widgets/minimal_contour_widget.py:566-574 | a click that rounds equal to the previous anchor leaves the whole session unchanged, except that the recorded count has already grown by one |
| ContourSession.AcceptedAnchorPlacement | src/napari_nd_annotator/_widgets/minimal_contour_widget.py:569-590 | an accepted click is clipped into [0, shape] and becomes the last anchor (plain) or the first (shift); afterwards `triangle[2] == anchors[0]` and `triangle[0] == anchors[-1]` |
| ContourSession.AcceptedAnchorSplice | src/napari_nd_annotator/_widgets/minimal_contour_widget.py:576-587 | a plain add appends `from_e`, a shift add prepends `to_s`; the output grows by exactly the remembered length; an empty segment changes neither output nor length |
| ContourSession.ShrinkClearsSession | src/napari_nd_annotator/_widgets/minimal_contour_widget.py:560-565 | fewer points than the recorded count empties output, anchors and previews, unsets the triangle and zeroes the count |
| ContourSession.RightClick | src/napari_nd_annotator/_widgets/minimal_contour_widget.py:601-614 | a right click in add mode always sets the pending flag; with a remembered length n <= output length it removes exactly n output points and one anchor, from the front after a shift add and from the back otherwise, then re-derives the triangle's two end slots and forgets n; for n = 0 or n longer than the output the cut leaves it empty, as the slices at 608 and 611 do; without a length only the pending flag changes; the cursor slot, the shift flag and the previews are never touched |
| ContourSession.SecondRightClickRemovesNothing | src/napari_nd_annotator/_widgets/minimal_contour_widget.py:604-614 | with at least two anchors, a second right click removes no output points and no anchors |
| ContourSession.SingleAnchorRightClickCutsTwice | src/napari_nd_annotator/_widgets/minimal_contour_widget.py:604-614 | with a single anchor the first right click aborts at 612 and keeps the remembered length n, so a second right click cuts n more output points |
| ContourSession.AddThenRightClickRestores | src/napari_nd_annotator/_widgets/minimal_contour_widget.py:555-614 | an accepted click that spliced a segment, then a right click, then the point napari adds for it, restore the previous anchors, output, previews and triangle |
| ContourSession.MouseMove | src/napari_nd_annotator/_widgets/minimal_contour_widget.py:418-459 | outside add mode or without an image nothing changes; otherwise the cursor always overwrites `triangle[1]`; an out-of-bounds triangle or a missing feature image leaves the previews unchanged; in bounds, with Ctrl, the straight lines cursor-to-start and end-to-cursor are flipped into `from_e` and `to_s`; without Ctrl the solver gets the box around the triangle, clipped by the image's shape for the standard field and by the feature image's shape for custom features, and its results are flipped into `from_e` and `to_s` |
| ContourSession.OutOfBoundsMoveIgnoresSolver | src/napari_nd_annotator/_widgets/minimal_contour_widget.py:426-428 | with any triangle coordinate out of the image, the move's result does not depend on the solver or the line drawer, so neither is called |
| ContourSession.ClearedSessionIgnoresMoves | src/napari_nd_annotator/_widgets/minimal_contour_widget.py:316-324 | after a clear, no cursor move produces a preview |
| ContourSession.StraightPreviewOrientation | src/napari_nd_annotator/_widgets/minimal_contour_widget.py:440-458 | in Ctrl mode, after the flip, `from_e` runs from the last anchor's pixel to the cursor's and `to_s` from the cursor's pixel to the first anchor's |
| ContourSession.StepPreservesConsistent | src/napari_nd_annotator/_widgets/minimal_contour_widget.py:552-614 | every click, move, right click, Escape and double click (committing or not) keeps the triangle's ends on the first and last anchor and keeps any remembered length positive |
| ContourSession.RunPreservesConsistent | src/napari_nd_annotator/_widgets/minimal_contour_widget.py:552-614 | the same holds along any sequence of such events |
| ContourSession.DuplicateThenTakeBackClearsSession | src/napari_nd_annotator/_widgets/minimal_contour_widget.py:561-574 | since the count is recorded before the duplicate check, for any session after a plain splice a duplicate, a take-back right click (with the point napari adds for it) and one ordinary click clear the whole session |
| LabelLedger.Embed | src/napari_nd_annotator/_widgets/minimal_contour_widget.py:631-635 | a slice pixel's full index is `current_step` with the two displayed axes replaced by the pixel's row and column |
| LabelLedger.EmbedInjective | src/napari_nd_annotator/_widgets/minimal_contour_widget.py:631-635 | distinct slice pixels get distinct full indices |
| LabelLedger.MaskIndices | src/napari_nd_annotator/_widgets/minimal_contour_widget.py:629-635 | the recorded index set is exactly the full indices of the masked pixels |
| LabelLedger.SetMask | src/napari_nd_annotator/_widgets/minimal_contour_widget.py:625-641 | the layer's record holds the previous value at every masked index and replaces any older record; other layers' records are kept; masked indices get the selected label and all others keep their value; auto-increment raises the selected label by 1 |
| LabelLedger.Undo | src/napari_nd_annotator/_widgets/minimal_contour_widget.py:301-311 | with a record, the recorded values are written back, other values stay, the layer's id, shape, selected label and brush size are kept, and the record is deleted; with no record or no layer there is nothing to revert |
| LabelLedger.UndoRestoresCommit | src/napari_nd_annotator/_widgets/minimal_contour_widget.py:301-311 | commit then undo gives back exactly the pre-commit array and removes the layer's record; the incremented selected label stays |
| LabelLedger.UndoIsOneShot | src/napari_nd_annotator/_widgets/minimal_contour_widget.py:308-311 | a second undo takes the "nothing to revert" path |
| LabelLedger.Sign | src/napari_nd_annotator/_widgets/minimal_contour_widget.py:466 | `np.sign` is -1, 0 or 1 with the sign of its argument |
| LabelLedger.BrushStep | src/napari_nd_annotator/_widgets/minimal_contour_widget.py:471 | the brush step is `brush_size // 10` clamped to [1, 5]: 1 below 10, 5 from 60 up |
| LabelLedger.MouseWheel | src/napari_nd_annotator/_widgets/minimal_contour_widget.py:463-472 | Shift-wheel sets the selected label to `max(0, label + sign(dy))`, so a non-negative label goes up by exactly 1 on an upward notch; Alt-wheel moves the brush size by exactly `BrushStep(brush_size)` in the wheel's horizontal direction, clamped at 0, and leaves it (clamped at 0) for a zero delta; nothing else changes |
| LabelLedger.WheelUpThenDownRestoresLabel | src/napari_nd_annotator/_widgets/minimal_contour_widget.py:467-468 | one notch up then one down restores a non-negative selected label |
| LabelLedger.WheelDownThenUpRestoresLabel | src/napari_nd_annotator/_widgets/minimal_contour_widget.py:467-468 | one notch down then one up restores a selected label of at least 1 |
| LabelLedger.AltWheelRightThenLeftRestoresBrush | src/napari_nd_annotator/_widgets/minimal_contour_widget.py:469-472 | one Alt notch right then one left restores a non-negative brush size whenever both notches use the same step |
| LabelLedger.AltWheelRoundTripDriftsAtStepBoundary | src/napari_nd_annotator/_widgets/minimal_contour_widget.py:469-472 | across a step boundary the round trip drifts: 19 goes to 20 and back to 18 |
| ContourWidget.WorkingImage | src/napari_nd_annotator/_widgets/minimal_contour_widget.py:534-535 | the working image always has a channel axis: a 2-D slice gets 3 channels and an RGB(A) slice keeps its own; its plane is the slice's first two dimensions |
| ContourWidget.AsWrittenRefusesMatchingLayer | src/napari_nd_annotator/_widgets/minimal_contour_widget.py:649-651 | the shape check as written refuses every 2-D labels layer, even one of the image's own height and width |
| ContourWidget.CorrectedCheckAdmitsMatchingLayer | src/napari_nd_annotator/_widgets/minimal_contour_widget.py:649-658 | the corrected check admits an (H, W) labels layer under any view showing its axes in order, and every in-image point then falls on a mask pixel |
| ContourWidget.CorrectedCheckAlignsGrids | src/napari_nd_annotator/_widgets/minimal_contour_widget.py:649-658 | under the corrected check, image pixels and mask pixels are the same grid |
| ContourWidget.CheckCommit | src/napari_nd_annotator/_widgets/minimal_contour_widget.py:643-651 | the commit goes ahead iff there is an image, a non-empty contour, a labels layer and matching shapes under the corrected comparison; no image or an empty contour skips silently, before the labels check |
| ContourSession.CloseContour | src/napari_nd_annotator/_widgets/minimal_contour_widget.py:592-596 | the double click appends `from_e` with Shift and prepends `to_s` without it, the mirror of an anchor add; the output grows by that segment's length and nothing else changes |
| ContourWidget.DoubleClick | src/napari_nd_annotator/_widgets/minimal_contour_widget.py:592-659 | a passing check (with the corrected comparison) commits the rasterised contour exactly as `SetMask` does (labels written on the mask, all other values kept, previous values recorded, other layers' records kept) and clears the session; an empty closed contour never commits; a failing one leaves labels and ledger untouched and keeps the session with its closed contour |
| ContourWidget.DoubleClickThenUndoRestoresLabels | src/napari_nd_annotator/_widgets/minimal_contour_widget.py:301-311 | after a committing double click, undo restores every label value and removes the record; a second undo has nothing to revert |

## Left out

- Qt and napari plumbing is not modelled. This covers widget construction,
  layouts, spin boxes, the label tooltip (`update_label_tooltip`, `eventFilter`),
  layer ordering (`move_temp_to_top`), `lock_layer`, `change_point_size`,
  `add_mode_only`, key bindings (`set_callbacks`, `on_label_change`) and the
  colour swaps of `shift_pressed`.
- The `QMutex.tryLock` drop of concurrent moves (419-420) is concurrency. A move
  is handled whole.
- The `DrawWorker` thread (616-623) is concurrency too. The commit is a
  synchronous call.
- `MinimalContourCalculator`, `FeatureManager`, `skimage.draw.line` and
  `polygon2mask` are not part of this model. They appear as function parameters.
  The solver's field (image or custom features) lives inside the solver parameter.
  The source only changes which shape clips the box.
- `smooth_fourier` is floating-point FFT. It is an opaque `Smoother` parameter that
  returns as many points as it gets, as `irfft(..., len(points))` at 667 does.
- The exception `scipy.fft.rfft` raises on an empty contour (665) is not modelled.
  There the model returns the empty contour unchanged, which commits nothing, as
  the aborted handler does.
- The float64 rounding of intermediate results is idealised away. This covers
  `size[0] * 0.1`, the subtractions and additions of `bbox_around_points` (47-48)
  and the bounds before `astype(int)` (399-400). Stored coordinates are exact reals.
- The normalisation and blur in `set_image` are floating point. Only the effect on
  the working image's shape (534-535) is modelled.
- `extend_mask` and `reduce_mask` delegate to skimage morphology.
- The `world_to_data` and `data_to_world` transforms are napari internals. Cursor
  and contour points are taken in data coordinates (426, 655).
- The event-source check at 553 is event routing. The refresh and `events.data()`
  notifications, the progress dialog and `set_view_slice` are display-only.
- `DataEvent` takes the image shape as given. Without an image the source raises
  at 569.
- `MouseMove` treats "no image layer" (422) and "no working image" (436-438) as
  one optional shape. Once line 427 has read the shape, the second check cannot
  fire.
- `LabelLedger.MouseWheel` treats the brush size as an integer. The selected label
  is unbounded, because the labels layer's dtype limits belong to napari.

## Findings

| source | as written | input that shows it | evidently intended | confidence | as-written member | corrected member |
|---|---|---|---|---|---|---|
| src/napari_nd_annotator/_widgets/minimal_contour_widget.py:649 | compares `labels.layer.data.shape` with `image_data.shape`; the working image built at 534-535 always has a channel axis | a 2-D image of shape (H, W) with a 2-D labels layer of shape (H, W): the working image is (H, W, 3), so the check reports a mismatch and nothing is committed | compare the labels layer's displayed slice with the image plane `image_data.shape[:2]`, as lines 427 and 569 already do | not executed; medium | ContourWidget.AsWrittenRefusesMatchingLayer | ContourWidget.CorrectedCheckAdmitsMatchingLayer |

`ContourWidget.CheckCommit`, and through it `ContourWidget.DoubleClick`, use the
corrected comparison.

=== FILE: geometry.dfy ===
/**
 Image-plane geometry of the minimal-contour widget: points, the rounding and
 clipping applied to anchors, the point triangle and its bounds check, and the
 search box handed to the minimal-path solver.

 Stored coordinates are `real`. The float64 rounding of intermediate
 results (the padding and the box bounds before `astype(int)`) is idealised
 away. `np.round` is round-half-to-even and Python's `int()` truncates toward
 zero, and both are written out here.
 */
module Geometry {

  /** A position in image-pixel space, (row, column). */
  datatype Point = Point(row: real, col: real)

  /** An integer pixel position, (row, column). */
  datatype Cell = Cell(row: int, col: int)

  /** The spatial shape (height, width) of an image plane: `shape[:2]`. */
  datatype Shape = Shape(height: nat, width: nat)

  /** The point triangle: last anchor, live cursor, first anchor (slots 0, 1, 2). */
  datatype Triangle = Triangle(start: Point, current: Point, end: Point)

  /** An axis-aligned box with integer bounds, as handed to the solver. */
  datatype Box = Box(fromRow: int, fromCol: int, toRow: int, toCol: int)

  /** The unclipped floating-point box around a triangle. */
  datatype RealBox = RealBox(fromRow: real, fromCol: real, toRow: real, toCol: real)

  /** The sentinel of an unset triangle slot: every coordinate is -1. */
  const Unset: Point := Point(-1.0, -1.0)

  const UnsetTriangle: Triangle := Triangle(Unset, Unset, Unset)

  function CellPoint(c: Cell): Point {
    Point(c.row as real, c.col as real)
  }

  /** Python's `int()` on a float: truncation toward zero. */
  function Trunc(x: real): (r: int)
    ensures 0.0 <= x ==> 0 <= r && r as real <= x < r as real + 1.0
    ensures x < 0.0 ==> r <= 0 && r as real - 1.0 < x <= r as real
  {
    if x >= 0.0 then x.Floor else -((-x).Floor)
  }

  /** The pixel a point falls in, by `int()` on each coordinate. */
  function CellOf(p: Point): Cell {
    Cell(Trunc(p.row), Trunc(p.col))
  }

  /** `np.round` with no decimals: to the nearest integer, ties to the even one. */
  function RoundHalfEven(x: real): (r: int)
    ensures x - 0.5 <= r as real <= x + 0.5
    ensures (r as real == x - 0.5 || r as real == x + 0.5) ==> r % 2 == 0
  {
    var f := x.Floor;
    var frac := x - f as real;
    if frac < 0.5 then f
    else if frac > 0.5 then f + 1
    else if f % 2 == 0 then f
    else f + 1
  }

  /** The rounding is the unique nearest integer, with ties going to the even one. */
  lemma RoundHalfEvenUnique(x: real, k: int)
    requires x - 0.5 < k as real < x + 0.5 || ((k as real == x - 0.5 || k as real == x + 0.5) && k % 2 == 0)
    ensures RoundHalfEven(x) == k
  {
  }

  /** The duplicate test on anchors: both coordinates agree after `np.round`. */
  predicate SameAfterRounding(p: Point, q: Point) {
    RoundHalfEven(p.row) == RoundHalfEven(q.row) && RoundHalfEven(p.col) == RoundHalfEven(q.col)
  }

  /** `np.clip(x, 0, hi)`: the nearest value of the closed interval [0, hi]. */
  function ClipCoord(x: real, hi: nat): (r: real)
    ensures 0.0 <= r <= hi as real
    ensures 0.0 <= x <= hi as real ==> r == x
    ensures x < 0.0 ==> r == 0.0
    ensures hi as real < x ==> r == hi as real
  {
    if x < 0.0 then 0.0 else if x > hi as real then hi as real else x
  }

  /** Clipping never reverses the order of two coordinates. */
  lemma ClipCoordMonotone(x: real, y: real, hi: nat)
    requires x <= y
    ensures ClipCoord(x, hi) <= ClipCoord(y, hi)
  {
  }

  /** `np.clip(p, 0, shape[:2])`; the upper bound is the shape itself, not shape - 1. */
  function ClipPoint(p: Point, shape: Shape): (r: Point)
    ensures 0.0 <= r.row <= shape.height as real && 0.0 <= r.col <= shape.width as real
    ensures r.row == ClipCoord(p.row, shape.height) && r.col == ClipCoord(p.col, shape.width)
    ensures InClosedPlane(p, shape) ==> r == p
  {
    Point(ClipCoord(p.row, shape.height), ClipCoord(p.col, shape.width))
  }

  /** Clipping an anchor twice is the same as clipping it once. */
  lemma ClipPointIdempotent(p: Point, shape: Shape)
    ensures ClipPoint(ClipPoint(p, shape), shape) == ClipPoint(p, shape)
  {
  }

  /** A point inside the closed box [0, height] x [0, width]. */
  predicate InClosedPlane(p: Point, shape: Shape) {
    0.0 <= p.row <= shape.height as real && 0.0 <= p.col <= shape.width as real
  }

  /** A point inside the half-open image plane [0, height) x [0, width). */
  predicate InPlane(p: Point, shape: Shape) {
    0.0 <= p.row < shape.height as real && 0.0 <= p.col < shape.width as real
  }

  /** No triangle coordinate is negative or at least the image shape. */
  predicate TriangleInBounds(t: Triangle, shape: Shape) {
    InPlane(t.start, shape) && InPlane(t.current, shape) && InPlane(t.end, shape)
  }

  /** A triangle with an unset slot is never in bounds, whatever the image. */
  lemma UnsetSlotOutOfBounds(t: Triangle, shape: Shape)
    requires t.start == Unset || t.current == Unset || t.end == Unset
    ensures !TriangleInBounds(t, shape)
  {
  }

  /** A pixel inside the half-open grid [0, height) x [0, width). */
  predicate InGrid(c: Cell, shape: Shape) {
    0 <= c.row < shape.height && 0 <= c.col < shape.width
  }

  /** A pixel inside the half-open box [from, to) on both axes. */
  predicate CellInBox(c: Cell, b: Box) {
    b.fromRow <= c.row < b.toRow && b.fromCol <= c.col < b.toCol
  }

  function Min3(a: real, b: real, c: real): (r: real)
    ensures r <= a && r <= b && r <= c
    ensures r == a || r == b || r == c
  {
    if a <= b && a <= c then a else if b <= c then b else c
  }

  function Max3(a: real, b: real, c: real): (r: real)
    ensures a <= r && b <= r && c <= r
    ensures r == a || r == b || r == c
  {
    if a >= b && a >= c then a else if b >= c then b else c
  }

  function MinRow(t: Triangle): real { Min3(t.start.row, t.current.row, t.end.row) }
  function MaxRow(t: Triangle): real { Max3(t.start.row, t.current.row, t.end.row) }
  function MinCol(t: Triangle): real { Min3(t.start.col, t.current.col, t.end.col) }
  function MaxCol(t: Triangle): real { Max3(t.start.col, t.current.col, t.end.col) }

  /** The padding of `bbox_around_points`: a tenth of the ROW extent plus 10, on both axes. */
  function Padding(t: Triangle): real {
    (MaxRow(t) - MinRow(t)) * 0.1 + 10.0
  }

  /**
   The unclipped box of `bbox_around_points`: it encloses every triangle point
   with the same margin on all four sides, and that margin is at least 10.
   */
  function BoxAroundPoints(t: Triangle): (b: RealBox)
    ensures MinRow(t) - b.fromRow == MinCol(t) - b.fromCol == b.toRow - MaxRow(t) == b.toCol - MaxCol(t) == Padding(t)
    ensures Padding(t) >= 10.0
    ensures b.fromRow + 10.0 <= t.start.row <= b.toRow - 10.0 && b.fromCol + 10.0 <= t.start.col <= b.toCol - 10.0
    ensures b.fromRow + 10.0 <= t.current.row <= b.toRow - 10.0 && b.fromCol + 10.0 <= t.current.col <= b.toCol - 10.0
    ensures b.fromRow + 10.0 <= t.end.row <= b.toRow - 10.0 && b.fromCol + 10.0 <= t.end.col <= b.toCol - 10.0
  {
    var pad := Padding(t);
    RealBox(MinRow(t) - pad, MinCol(t) - pad, MaxRow(t) + pad, MaxCol(t) + pad)
  }

  /**
   The column margin ignores the column extent: two triangles whose rows agree get
   the same padding, however far apart their columns are.
   */
  lemma ColumnPaddingIgnoresColumns(t: Triangle, u: Triangle)
    requires t.start.row == u.start.row && t.current.row == u.current.row && t.end.row == u.end.row
    ensures MinCol(t) - BoxAroundPoints(t).fromCol == MinCol(u) - BoxAroundPoints(u).fromCol
    ensures BoxAroundPoints(t).toCol - MaxCol(t) == BoxAroundPoints(u).toCol - MaxCol(u)
  {
  }

  /** One bound of the solver box: clipped to [0, hi] and then cast by `astype(int)`. */
  function ClipBound(x: real, hi: nat): (r: int)
    ensures 0 <= r <= hi
    ensures x <= 0.0 ==> r == 0
    ensures hi as real <= x ==> r == hi
    ensures 0.0 <= x <= hi as real ==> r == Trunc(x)
  {
    Trunc(ClipCoord(x, hi))
  }

  lemma ClipBoundMonotone(x: real, y: real, hi: nat)
    requires x <= y
    ensures ClipBound(x, hi) <= ClipBound(y, hi)
  {
    ClipCoordMonotone(x, y, hi);
  }

  /** A coordinate in [0, hi) that a lower bound undershoots lies at or after the clipped bound. */
  lemma LowerBoundBelow(lo: real, x: real, hi: nat)
    requires lo <= x && 0.0 <= x < hi as real
    ensures ClipBound(lo, hi) <= Trunc(x)
  {
    ClipBoundMonotone(lo, x, hi);
    assert ClipCoord(x, hi) == x;
  }

  /** A coordinate in [0, hi) that an upper bound exceeds by 10 lies strictly before the clipped bound. */
  lemma UpperBoundAbove(x: real, up: real, hi: nat)
    requires x + 10.0 <= up && 0.0 <= x < hi as real
    ensures Trunc(x) < ClipBound(up, hi)
  {
    if up > hi as real {
      assert ClipCoord(up, hi) == hi as real;
    } else {
      assert ClipCoord(up, hi) == up;
    }
  }

  /**
   The box `estimate` hands to the solver: `bbox_around_points` clipped to the image
   shape. Every bound lies in [0, shape], each lower bound is at most its upper bound,
   and when the triangle is in bounds the box contains the pixel of every triangle point.
   */
  function SolverBox(t: Triangle, shape: Shape): (b: Box)
    ensures 0 <= b.fromRow <= b.toRow <= shape.height
    ensures 0 <= b.fromCol <= b.toCol <= shape.width
    ensures TriangleInBounds(t, shape) ==>
      CellInBox(CellOf(t.start), b) && CellInBox(CellOf(t.current), b) && CellInBox(CellOf(t.end), b)
    ensures var rb := BoxAroundPoints(t);
      b == Box(ClipBound(rb.fromRow, shape.height), ClipBound(rb.fromCol, shape.width),
               ClipBound(rb.toRow, shape.height), ClipBound(rb.toCol, shape.width))
  {
    var rb := BoxAroundPoints(t);
    var b := Box(ClipBound(rb.fromRow, shape.height), ClipBound(rb.fromCol, shape.width),
                 ClipBound(rb.toRow, shape.height), ClipBound(rb.toCol, shape.width));
    ClipBoundMonotone(rb.fromRow, rb.toRow, shape.height);
    ClipBoundMonotone(rb.fromCol, rb.toCol, shape.width);
    BoxContainsPoint(t.start, rb, shape);
    BoxContainsPoint(t.current, rb, shape);
    BoxContainsPoint(t.end, rb, shape);
    b
  }

  lemma BoxContainsPoint(p: Point, rb: RealBox, shape: Shape)
    requires rb.fromRow + 10.0 <= p.row <= rb.toRow - 10.0 && rb.fromCol + 10.0 <= p.col <= rb.toCol - 10.0
    ensures InPlane(p, shape) ==> CellInBox(CellOf(p), Box(ClipBound(rb.fromRow, shape.height), ClipBound(rb.fromCol, shape.width),
                                     ClipBound(rb.toRow, shape.height), ClipBound(rb.toCol, shape.width)))
  {
    if InPlane(p, shape) {
      LowerBoundBelow(rb.fromRow, p.row, shape.height);
      LowerBoundBelow(rb.fromCol, p.col, shape.width);
      UpperBoundAbove(p.row, rb.toRow, shape.height);
      UpperBoundAbove(p.col, rb.toCol, shape.width);
    }
  }

  /**
   Away from the image border the box keeps its padding: for the triangle (50, 50),
   (51, 51), (52, 52) in a 1000 x 1000 image the margin is 10.2, so the box runs
   from pixel 39 to pixel 62 on both axes.
   */
  lemma SolverBoxKeepsPadding()
    ensures SolverBox(Triangle(Point(50.0, 50.0), Point(51.0, 51.0), Point(52.0, 52.0)), Shape(1000, 1000))
         == Box(39, 39, 62, 62)
  {
    var t := Triangle(Point(50.0, 50.0), Point(51.0, 51.0), Point(52.0, 52.0));
    assert MinRow(t) == 50.0 && MaxRow(t) == 52.0 && MinCol(t) == 50.0 && MaxCol(t) == 52.0;
    assert Padding(t) == 10.2;
  }
}

=== FILE: ledger.dfy ===
/**
 The labels side of the widget: a labels layer as a map from N-d index to label
 value, the embedding of the displayed 2-D slice into it, the single-level undo
 ledger written by `set_mask` and consumed by `ctrl_z_callback`, and the
 mouse-wheel adjustments of the selected label and brush size.
 */
module LabelLedger {
  import opened Wrappers
  import opened Geometry

  /** Identity of a labels layer (the Python object the ledger dictionaries are keyed by). */
  type LayerId = nat

  /** A full N-d index into a labels array. */
  type Index = seq<int>

  type LabelArray = map<Index, int>

  /** Previous values at the indices a commit overwrote: `change_idx` and `prev_vals` paired up. */
  type ChangeRecord = map<Index, int>

  /** At most one pending change record per labels layer. */
  type Ledger = map<LayerId, ChangeRecord>

  /** The viewer's position: `current_step`, and the two displayed axes (row, column). */
  datatype View = View(step: seq<int>, rowAxis: nat, colAxis: nat)

  datatype LabelsLayer = LabelsLayer(
    id: LayerId,
    data: LabelArray,
    dataShape: seq<nat>,
    selectedLabel: int,
    brushSize: int)

  /** The two displayed axes are distinct axes of the step. */
  predicate WellFormedView(v: View) {
    v.rowAxis < |v.step| && v.colAxis < |v.step| && v.rowAxis != v.colAxis
  }

  /** The view addresses an array of exactly this many dimensions. */
  predicate ViewFits(v: View, dataShape: seq<nat>) {
    WellFormedView(v) && |v.step| == |dataShape|
  }

  /**
   The N-d index of a pixel of the displayed slice: `current_step` with the two
   displayed axes replaced by the pixel's row and column.
   */
  function Embed(v: View, c: Cell): (i: Index)
    requires WellFormedView(v)
    ensures |i| == |v.step| && i[v.rowAxis] == c.row && i[v.colAxis] == c.col
    ensures forall k :: 0 <= k < |i| && k != v.rowAxis && k != v.colAxis ==> i[k] == v.step[k]
  {
    v.step[v.rowAxis := c.row][v.colAxis := c.col]
  }

  /** Distinct pixels of a slice land on distinct N-d indices. */
  lemma EmbedInjective(v: View, c: Cell, d: Cell)
    requires WellFormedView(v) && Embed(v, c) == Embed(v, d)
    ensures c == d
  {
    assert Embed(v, c)[v.rowAxis] == Embed(v, d)[v.rowAxis];
    assert Embed(v, c)[v.colAxis] == Embed(v, d)[v.colAxis];
  }

  /** The shape of the displayed slice, `_data_view.shape`. */
  function SliceShape(layer: LabelsLayer, v: View): Shape
    requires ViewFits(v, layer.dataShape)
  {
    Shape(layer.dataShape[v.rowAxis], layer.dataShape[v.colAxis])
  }

  /** Every pixel of the displayed slice is an index of the layer's array. */
  predicate CoversSlice(layer: LabelsLayer, v: View) {
    && ViewFits(v, layer.dataShape)
    && forall row, col | 0 <= row < layer.dataShape[v.rowAxis] && 0 <= col < layer.dataShape[v.colAxis] ::
         Embed(v, Cell(row, col)) in layer.data
  }

  /** `np.nonzero(mask)` lifted to full indices at the current step. */
  function MaskIndices(mask: set<Cell>, v: View): (r: set<Index>)
    requires WellFormedView(v)
    ensures forall c :: c in mask ==> Embed(v, c) in r
    ensures forall i :: i in r ==> exists c :: c in mask && Embed(v, c) == i
  {
    set c | c in mask :: Embed(v, c)
  }

  /**
   `set_mask`: records, for this layer, the previous values at every masked index
   (replacing any older record), writes the selected label there and leaves every
   other index alone; with auto-increment on the selected label then grows by one.
   */
  function SetMask(layer: LabelsLayer, ledger: Ledger, mask: set<Cell>, v: View, autoIncrement: bool)
    : (r: (LabelsLayer, Ledger))
    requires WellFormedView(v)
    requires forall c :: c in mask ==> Embed(v, c) in layer.data
    ensures var (layer', ledger') := r;
      && ledger'.Keys == ledger.Keys + {layer.id}
      && (forall id :: id in ledger && id != layer.id ==> ledger'[id] == ledger[id])
      && ledger'[layer.id].Keys == MaskIndices(mask, v)
      && (forall i :: i in ledger'[layer.id] ==> ledger'[layer.id][i] == layer.data[i])
      && layer'.data.Keys == layer.data.Keys
      && (forall c :: c in mask ==> layer'.data[Embed(v, c)] == layer.selectedLabel)
      && (forall i :: i in layer.data && i !in MaskIndices(mask, v) ==> layer'.data[i] == layer.data[i])
      && layer'.selectedLabel == (if autoIncrement then layer.selectedLabel + 1 else layer.selectedLabel)
      && layer'.id == layer.id && layer'.dataShape == layer.dataShape && layer'.brushSize == layer.brushSize
  {
    var idx := MaskIndices(mask, v);
    var prev := map i | i in idx :: layer.data[i];
    var data := map i | i in layer.data :: if i in idx then layer.selectedLabel else layer.data[i];
    var selected := if autoIncrement then layer.selectedLabel + 1 else layer.selectedLabel;
    (layer.(data := data, selectedLabel := selected), ledger[layer.id := prev])
  }

  datatype UndoOutcome = Reverted(layer: LabelsLayer, ledger: Ledger) | NothingToRevert

  /**
   `ctrl_z_callback`: if the current layer has a change record, the recorded values
   are written back at their indices and the record is deleted; otherwise there is
   nothing to revert and nothing changes. The selected label is not touched.
   */
  function Undo(layer: Option<LabelsLayer>, ledger: Ledger): (r: UndoOutcome)
    ensures r.NothingToRevert? <==> layer.None? || layer.value.id !in ledger
    ensures r.Reverted? ==>
      var rec := ledger[layer.value.id];
      && r.ledger == ledger - {layer.value.id}
      && r.layer.data.Keys == layer.value.data.Keys
      && (forall i :: i in rec && i in layer.value.data ==> r.layer.data[i] == rec[i])
      && (forall i :: i in layer.value.data && i !in rec ==> r.layer.data[i] == layer.value.data[i])
      && r.layer == layer.value.(data := r.layer.data)
  {
    if layer.Some? && layer.value.id in ledger then
      var L := layer.value;
      var rec := ledger[L.id];
      Reverted(L.(data := map i | i in L.data :: if i in rec then rec[i] else L.data[i]), ledger - {L.id})
    else
      NothingToRevert
  }

  /**
   Commit-then-undo round trip: the labels array is back to exactly its values
   before the commit, and the layer's record is gone (an older record for the same
   layer was already overwritten by the commit). Only the auto-incremented
   selected label stays.
   */
  lemma {:induction false} UndoRestoresCommit(layer: LabelsLayer, ledger: Ledger, mask: set<Cell>, v: View, autoIncrement: bool)
    requires WellFormedView(v)
    requires forall c :: c in mask ==> Embed(v, c) in layer.data
    ensures var (layer', ledger') := SetMask(layer, ledger, mask, v, autoIncrement);
      var u := Undo(Some(layer'), ledger');
      && u.Reverted?
      && u.layer.data == layer.data
      && u.layer.selectedLabel == layer'.selectedLabel
      && u.ledger == ledger - {layer.id}
  {
    var (layer', ledger') := SetMask(layer, ledger, mask, v, autoIncrement);
    var u := Undo(Some(layer'), ledger');
    var rec := ledger'[layer.id];
    forall i | i in layer.data
      ensures u.layer.data[i] == layer.data[i]
    {
      if i in rec {
        assert u.layer.data[i] == rec[i];
      } else {
        assert i !in MaskIndices(mask, v);
      }
    }
    assert u.layer.data == layer.data;
    assert u.ledger == ledger - {layer.id} by {
      assert ledger' - {layer.id} == ledger - {layer.id};
    }
  }

  /** The undo is one-shot: undoing again finds nothing to revert. */
  lemma UndoIsOneShot(layer: LabelsLayer, ledger: Ledger)
    requires layer.id in ledger
    ensures var u := Undo(Some(layer), ledger);
      Undo(Some(u.layer), u.ledger) == NothingToRevert
  {
  }

  // ---------------------------------------------------------------------------
  // on_mouse_wheel
  // ---------------------------------------------------------------------------

  /** `np.sign` of one wheel component. */
  function Sign(x: real): (r: int)
    ensures -1 <= r <= 1
    ensures (r > 0 <==> x > 0.0) && (r < 0 <==> x < 0.0)
  {
    if x > 0.0 then 1 else if x < 0.0 then -1 else 0
  }

  /** The brush step `min(max(1, brush_size // 10), 5)`; Python's `//` floors, as Dafny's `/` does for a positive divisor. */
  function BrushStep(brushSize: int): (r: int)
    ensures 1 <= r <= 5
    ensures brushSize / 10 < 1 ==> r == 1
    ensures 1 <= brushSize / 10 <= 5 ==> r == brushSize / 10
    ensures brushSize / 10 > 5 ==> r == 5
  {
    var q := brushSize / 10;
    var atLeastOne := if q > 1 then q else 1;
    if atLeastOne < 5 then atLeastOne else 5
  }

  datatype WheelDelta = WheelDelta(x: real, y: real)

  /**
   `on_mouse_wheel`: with Shift the selected label moves one step in the vertical
   wheel direction and never below 0; with Alt (and not Shift) the brush size
   moves by 1 to 5 in the horizontal direction and never below 0. Nothing else changes.
   */
  function MouseWheel(layer: Option<LabelsLayer>, delta: WheelDelta, shift: bool, alt: bool): (r: Option<LabelsLayer>)
    ensures layer.None? <==> r.None?
    ensures layer.Some? ==>
      var L := layer.value;
      var R := r.value;
      && R.id == L.id && R.data == L.data && R.dataShape == L.dataShape
      && (shift ==>
            && R.brushSize == L.brushSize
            && R.selectedLabel >= 0
            && (L.selectedLabel >= 0 ==> -1 <= R.selectedLabel - L.selectedLabel <= 1)
            && (R.selectedLabel == if L.selectedLabel + Sign(delta.y) > 0 then L.selectedLabel + Sign(delta.y) else 0)
            && (L.selectedLabel >= 0 && delta.y > 0.0 ==> R.selectedLabel == L.selectedLabel + 1)
            && (delta.y < 0.0 ==> R.selectedLabel < L.selectedLabel || R.selectedLabel == 0)
            && (delta.y == 0.0 ==> R.selectedLabel == if L.selectedLabel < 0 then 0 else L.selectedLabel))
      && (!shift && alt ==>
            && R.selectedLabel == L.selectedLabel
            && R.brushSize >= 0
            && (L.brushSize >= 0 ==> -5 <= R.brushSize - L.brushSize <= 5)
            && (delta.x > 0.0 ==> R.brushSize == (if L.brushSize + BrushStep(L.brushSize) > 0 then L.brushSize + BrushStep(L.brushSize) else 0))
            && (delta.x < 0.0 ==> R.brushSize == (if L.brushSize - BrushStep(L.brushSize) > 0 then L.brushSize - BrushStep(L.brushSize) else 0))
            && (delta.x == 0.0 ==> R.brushSize == (if L.brushSize > 0 then L.brushSize else 0))
            && (L.brushSize >= 0 && delta.x > 0.0 ==> R.brushSize > L.brushSize)
            && (L.brushSize >= 0 && delta.x < 0.0 ==> R.brushSize < L.brushSize || R.brushSize == 0))
      && (!shift && !alt ==> R == L)
  {
    if layer.None? then None
    else
      var L := layer.value;
      if shift then
        var s := L.selectedLabel + Sign(delta.y);
        Some(L.(selectedLabel := if s > 0 then s else 0))
      else if alt then
        var diff := Sign(delta.x) * BrushStep(L.brushSize);
        var b := L.brushSize + diff;
        Some(L.(brushSize := if b > 0 then b else 0))
      else
        Some(L)
  }

  /** One Shift-wheel notch up and one down give back a non-negative selected label. */
  lemma WheelUpThenDownRestoresLabel(layer: LabelsLayer, up: WheelDelta, down: WheelDelta)
    requires layer.selectedLabel >= 0 && up.y > 0.0 && down.y < 0.0
    ensures MouseWheel(MouseWheel(Some(layer), up, true, false), down, true, false) == Some(layer)
  {
  }

  /** Down then up restores the selected label too, unless the first step was clamped at 0. */
  lemma WheelDownThenUpRestoresLabel(layer: LabelsLayer, up: WheelDelta, down: WheelDelta)
    requires layer.selectedLabel >= 1 && up.y > 0.0 && down.y < 0.0
    ensures MouseWheel(MouseWheel(Some(layer), down, true, false), up, true, false) == Some(layer)
  {
  }

  /**
   One Alt-wheel notch right and one left restore a non-negative brush size when
   both notches use the same step, that is when the first notch stays within the
   same tenth-range of `brush_size // 10`.
   */
  lemma AltWheelRightThenLeftRestoresBrush(layer: LabelsLayer, right: WheelDelta, left: WheelDelta)
    requires layer.brushSize >= 0 && right.x > 0.0 && left.x < 0.0
    requires BrushStep(layer.brushSize + BrushStep(layer.brushSize)) == BrushStep(layer.brushSize)
    ensures MouseWheel(MouseWheel(Some(layer), right, false, true), left, false, true) == Some(layer)
  {
    var up := MouseWheel(Some(layer), right, false, true).value;
    assert up.brushSize == layer.brushSize + BrushStep(layer.brushSize);
  }

  /**
   Across a step boundary the two notches use different steps, so the round trip
   drifts: from 19 one notch right gives 20, and one notch left then gives 18.
   */
  lemma AltWheelRoundTripDriftsAtStepBoundary(layer: LabelsLayer, right: WheelDelta, left: WheelDelta)
    requires layer.brushSize == 19 && right.x > 0.0 && left.x < 0.0
    ensures MouseWheel(Some(layer), right, false, true).value.brushSize == 20
    ensures MouseWheel(MouseWheel(Some(layer), right, false, true), left, false, true).value.brushSize == 18
  {
  }
}

=== FILE: session.dfy ===
/**
 The anchor-point contour session of the minimal-contour widget: the anchors the
 user places, the committed output contour, the two preview segments `from_e`
 and `to_s`, the point triangle, and the bookkeeping that lets a right click take
 back the last splice.

 Every transition is a pure function from the session before the event to the
 session after it. The minimal-path solver and the straight-line rasteriser are
 parameters: the model only fixes which inputs they receive and where their
 results go.
 */
module ContourSession {
  import opened Wrappers
  import opened Geometry

  /** The two polylines the solver returns, `results[0]` and `results[1]`. */
  datatype Segments = Segments(first: seq<Point>, second: seq<Point>)

  /** The minimal-path solver: search box and triangle in, two segments out. */
  type Solver = (Box, Triangle) -> Segments

  /** `skimage.draw.line` between two pixels, as a sequence of points. */
  type LineDrawer = (Cell, Cell) -> seq<Point>

  datatype Session = Session(
    anchors: seq<Point>,
    output: seq<Point>,
    fromE: seq<Point>,
    toS: seq<Point>,
    triangle: Triangle,
    prevAnchorCount: nat,
    lastSegmentLength: Option<nat>,
    lastAddedWithShift: Option<bool>,
    removeLastAnchor: bool)

  /** A cursor move over the anchor layer. */
  datatype MoveEvent = MoveEvent(cursor: Point, addMode: bool, ctrl: bool)

  /** Which field the solver runs on: the image, or the custom feature image (maybe not computed yet). */
  datatype FeatureSource = StandardImage | CustomFeatures(features: Option<Shape>)

  /** The state the widget's constructor sets up. */
  const Initial: Session := Session([], [], [], [], UnsetTriangle, 0, None, None, false)

  // ---------------------------------------------------------------------------
  // Sequence operations with numpy / Python slicing semantics
  // ---------------------------------------------------------------------------

  function Last<T>(a: seq<T>): T
    requires |a| > 0
  {
    a[|a| - 1]
  }

  /** `a[:-1]`: everything but the last element; empty stays empty. */
  function DropLast<T>(a: seq<T>): (r: seq<T>)
    ensures |a| > 0 ==> r + [Last(a)] == a
    ensures |a| == 0 ==> r == []
  {
    if |a| == 0 then [] else a[..|a| - 1]
  }

  /** `a[1:]`: everything but the first element; empty stays empty. */
  function DropFirst<T>(a: seq<T>): (r: seq<T>)
    ensures |a| > 0 ==> [a[0]] + r == a
    ensures |a| == 0 ==> r == []
  {
    if |a| == 0 then [] else a[1..]
  }

  /** `a[n:]`: drops the first `n` elements, or everything when `n` exceeds the length. */
  function DropFront<T>(a: seq<T>, n: nat): (r: seq<T>)
    ensures n <= |a| ==> |r| == |a| - n && a[..n] + r == a
    ensures n > |a| ==> r == []
  {
    if n <= |a| then a[n..] else []
  }

  /**
   `a[:-n]`: drops the last `n` elements, or everything when `n` exceeds the
   length. Python reads `a[:-0]` as `a[:0]`, so `n == 0` also gives the empty list.
   */
  function DropBack<T>(a: seq<T>, n: nat): (r: seq<T>)
    ensures 0 < n <= |a| ==> |r| == |a| - n && r + a[|a| - n..] == a
    ensures n == 0 || n > |a| ==> r == []
  {
    if n == 0 then [] else if n <= |a| then a[..|a| - n] else []
  }

  /** `np.roll(a, 1, 0)`: the last element moves to the front; a permutation. */
  function RotateRight<T>(a: seq<T>): (r: seq<T>)
    ensures |r| == |a|
    ensures multiset(r) == multiset(a)
    ensures |a| > 0 ==> r[0] == Last(a) && r[1..] == DropLast(a)
  {
    if |a| == 0 then [] else
      assert a == a[..|a| - 1] + [Last(a)];
      [Last(a)] + a[..|a| - 1]
  }

  /** `np.flipud` on a point list. */
  function Reverse<T>(a: seq<T>): (r: seq<T>)
    ensures |r| == |a|
    ensures forall i :: 0 <= i < |a| ==> r[i] == a[|a| - 1 - i]
  {
    if |a| == 0 then [] else Reverse(a[1..]) + [a[0]]
  }

  // ---------------------------------------------------------------------------
  // Session invariant
  // ---------------------------------------------------------------------------

  /** The triangle's start is the last anchor and its end the first anchor. */
  predicate TriangleTracksAnchors(s: Session) {
    |s.anchors| > 0 ==> s.triangle.start == Last(s.anchors) && s.triangle.end == s.anchors[0]
  }

  /**
   What every reachable session keeps: the triangle tracks the anchors, and a
   remembered splice length is never zero.
   */
  predicate Consistent(s: Session) {
    && TriangleTracksAnchors(s)
    && (s.lastSegmentLength.Some? ==> s.lastSegmentLength.value > 0)
  }

  // ---------------------------------------------------------------------------
  // clear_all
  // ---------------------------------------------------------------------------

  /**
   `clear_all` (also the Escape key): empties the output, anchors and previews and
   unsets the triangle. It does not reset `last_segment_length`,
   `last_added_with_shift` or the pending-removal flag.
   */
  function ClearAll(s: Session): (r: Session)
    ensures r.anchors == [] && r.output == [] && r.fromE == [] && r.toS == []
    ensures r.triangle == UnsetTriangle && r.prevAnchorCount == 0
    ensures r.lastSegmentLength == s.lastSegmentLength && r.lastAddedWithShift == s.lastAddedWithShift
    ensures r.removeLastAnchor == s.removeLastAnchor
  {
    s.(output := [], anchors := [], prevAnchorCount := 0, fromE := [], toS := [], triangle := UnsetTriangle)
  }

  lemma ClearAllIdempotent(s: Session)
    ensures ClearAll(ClearAll(s)) == ClearAll(s)
  {
  }

  // ---------------------------------------------------------------------------
  // data_event
  // ---------------------------------------------------------------------------

  /**
   The tail of `data_event` for an accepted anchor (`data` already clipped): a
   shift add rotates the new anchor to the front and prepends `to_s`; a plain add
   appends `from_e`. An empty segment splices nothing. The triangle's ends then
   follow the anchors.
   */
  function Splice(s: Session, data: seq<Point>, shift: bool): (r: Session)
    requires |data| > 0
    ensures |r.anchors| == |data| && TriangleTracksAnchors(r)
    ensures shift ==> r.anchors == [Last(data)] + DropLast(data) && r.lastAddedWithShift == Some(true)
    ensures shift && |s.toS| > 0 ==> r.output == s.toS + s.output && r.lastSegmentLength == Some(|s.toS|)
    ensures !shift ==> r.anchors == data
    ensures !shift && |s.fromE| > 0 ==>
      r.output == s.output + s.fromE && r.lastSegmentLength == Some(|s.fromE|) && r.lastAddedWithShift == Some(false)
    ensures (shift && |s.toS| == 0) || (!shift && |s.fromE| == 0) ==>
      r.output == s.output && r.lastSegmentLength == s.lastSegmentLength
    ensures !shift && |s.fromE| == 0 ==> r.lastAddedWithShift == s.lastAddedWithShift
    ensures r.fromE == s.fromE && r.toS == s.toS && r.triangle.current == s.triangle.current
    ensures r.prevAnchorCount == s.prevAnchorCount && r.removeLastAnchor == s.removeLastAnchor
  {
    var s1 :=
      if shift then
        var t := s.(lastAddedWithShift := Some(true), anchors := RotateRight(data));
        if |s.toS| > 0 then t.(output := s.toS + s.output, lastSegmentLength := Some(|s.toS|)) else t
      else
        var t := s.(anchors := data);
        if |s.fromE| > 0 then
          t.(output := s.output + s.fromE, lastAddedWithShift := Some(false), lastSegmentLength := Some(|s.fromE|))
        else t;
    s1.(triangle := s1.triangle.(end := s1.anchors[0], start := Last(s1.anchors)))
  }

  /**
   `data_event`: the anchor layer's data has just become `data` (napari appends a
   clicked point before firing the event).
   - A pending right-click removal drops the last point of `data` and does nothing else.
   - Fewer points than last time means a point was deleted: the session is cleared.
   - Otherwise the new count is recorded FIRST, the last point is clipped to the
     image, and it is dropped if it rounds equal to the previous one; an accepted
     point is spliced in by `Splice`.
   */
  function DataEvent(s: Session, data: seq<Point>, shape: Shape, shift: bool): (r: Session)
    ensures !r.removeLastAnchor
    ensures s.removeLastAnchor ==>
      && r.anchors == DropLast(data)
      && r.output == s.output && r.fromE == s.fromE && r.toS == s.toS && r.triangle == s.triangle
      && r.prevAnchorCount == s.prevAnchorCount && r.lastSegmentLength == s.lastSegmentLength
      && r.lastAddedWithShift == s.lastAddedWithShift
    ensures !s.removeLastAnchor && |data| < s.prevAnchorCount ==> r == ClearAll(s)
    ensures !s.removeLastAnchor && |data| >= s.prevAnchorCount ==>
      r.prevAnchorCount == |data| && (|r.anchors| == |data| || r.anchors == DropLast(data))
    ensures r.fromE == s.fromE || r.fromE == []
    ensures r.toS == s.toS || r.toS == []
    ensures r.output == s.output || r.output == s.output + s.fromE || r.output == s.toS + s.output || r.output == []
  {
    if s.removeLastAnchor then
      s.(anchors := DropLast(data), removeLastAnchor := false)
    else if |data| < s.prevAnchorCount then
      ClearAll(s)
    else if |data| == 0 then
      s.(anchors := data, prevAnchorCount := 0)
    else
      var n := |data|;
      var clipped := DropLast(data) + [ClipPoint(Last(data), shape)];
      if n > 1 && SameAfterRounding(clipped[n - 1], clipped[n - 2]) then
        s.(anchors := DropLast(data), prevAnchorCount := n)
      else
        Splice(s.(prevAnchorCount := n), clipped, shift)
  }

  /** The session after napari appends the clicked point `p` to the anchors. */
  function AddAnchor(s: Session, p: Point, shape: Shape, shift: bool): Session {
    DataEvent(s, s.anchors + [p], shape, shift)
  }

  /** The anchor that `data_event` would accept: the click clipped to the image. */
  predicate AcceptsAnchor(s: Session, p: Point, shape: Shape) {
    && !s.removeLastAnchor
    && |s.anchors| + 1 >= s.prevAnchorCount
    && (|s.anchors| == 0 || !SameAfterRounding(ClipPoint(p, shape), Last(s.anchors)))
  }

  /**
   A click that rounds to the previous anchor is dropped: anchors, output,
   previews and triangle are all unchanged, though the recorded count has
   already grown by one.
   */
  lemma DuplicateAnchorDropped(s: Session, p: Point, shape: Shape, shift: bool)
    requires !s.removeLastAnchor && |s.anchors| + 1 >= s.prevAnchorCount
    requires |s.anchors| > 0 && SameAfterRounding(ClipPoint(p, shape), Last(s.anchors))
    ensures var r := AddAnchor(s, p, shape, shift);
      r == s.(prevAnchorCount := |s.anchors| + 1)
  {
    var data := s.anchors + [p];
    assert DropLast(data) == s.anchors;
    assert (DropLast(data) + [ClipPoint(Last(data), shape)])[|data| - 2] == Last(s.anchors);
  }

  /**
   An accepted click is clipped into [0, shape] and becomes the last anchor
   (plain add) or the first (shift add); the triangle's end is then the first
   anchor and its start the last.
   */
  lemma AcceptedAnchorPlacement(s: Session, p: Point, shape: Shape, shift: bool)
    requires AcceptsAnchor(s, p, shape)
    ensures var r := AddAnchor(s, p, shape, shift);
      && TriangleTracksAnchors(r)
      && |r.anchors| == |s.anchors| + 1
      && (shift ==> r.anchors == [ClipPoint(p, shape)] + s.anchors)
      && (!shift ==> r.anchors == s.anchors + [ClipPoint(p, shape)])
      && InClosedPlane(if shift then r.anchors[0] else Last(r.anchors), shape)
      && r.prevAnchorCount == |s.anchors| + 1
  {
    var data := s.anchors + [p];
    assert DropLast(data) == s.anchors;
    var clipped := s.anchors + [ClipPoint(p, shape)];
    assert DropLast(clipped) == s.anchors;
    if |data| > 1 {
      assert clipped[|data| - 2] == Last(s.anchors);
    }
  }

  /**
   The splice of an accepted click: a plain add appends `from_e` at the back, a
   shift add prepends `to_s` at the front; the output grows by exactly the
   remembered length, and an empty segment leaves output and length alone.
   */
  lemma AcceptedAnchorSplice(s: Session, p: Point, shape: Shape, shift: bool)
    requires AcceptsAnchor(s, p, shape)
    ensures var r := AddAnchor(s, p, shape, shift);
      var seg := if shift then s.toS else s.fromE;
      && (|seg| > 0 ==>
            && r.lastSegmentLength == Some(|seg|)
            && r.lastAddedWithShift == Some(shift)
            && |r.output| == |s.output| + |seg|
            && r.output == (if shift then seg + s.output else s.output + seg))
      && (|seg| == 0 ==> r.output == s.output && r.lastSegmentLength == s.lastSegmentLength)
      && r.fromE == s.fromE && r.toS == s.toS
  {
    var data := s.anchors + [p];
    assert DropLast(data) == s.anchors;
    if |data| > 1 {
      assert (s.anchors + [ClipPoint(p, shape)])[|data| - 2] == Last(s.anchors);
    }
  }

  /** A point count below the recorded one clears the whole session. */
  lemma ShrinkClearsSession(s: Session, data: seq<Point>, shape: Shape, shift: bool)
    requires !s.removeLastAnchor && |data| < s.prevAnchorCount
    ensures var r := DataEvent(s, data, shape, shift);
      && r.anchors == [] && r.output == [] && r.fromE == [] && r.toS == []
      && r.triangle == UnsetTriangle && r.prevAnchorCount == 0
  {
  }

  // ---------------------------------------------------------------------------
  // on_right_click
  // ---------------------------------------------------------------------------

  /**
   `on_right_click`: a right click in add mode sets the pending-removal flag. If a
   splice length is remembered, it removes that many output points and one anchor,
   from the front after a shift add and from the back otherwise, re-derives the
   triangle's ends and forgets the length. When that leaves no anchor, reading
   `anchors[0]` raises in the source and the handler stops right there: the
   triangle and the remembered length stay as they were.
   */
  function RightClick(s: Session, button: int, addMode: bool): (r: Session)
    ensures button != 2 || !addMode ==> r == s
    ensures button == 2 && addMode ==> r.removeLastAnchor
    ensures s.lastSegmentLength.None? ==> r.anchors == s.anchors && r.output == s.output && r.triangle == s.triangle
    ensures button == 2 && addMode && s.lastSegmentLength.Some? && 0 < s.lastSegmentLength.value <= |s.output| ==>
      var n := s.lastSegmentLength.value;
      && |r.output| == |s.output| - n
      && (s.lastAddedWithShift == Some(true) ==> s.output[..n] + r.output == s.output)
      && (s.lastAddedWithShift != Some(true) ==> r.output + s.output[|s.output| - n..] == s.output)
    ensures button == 2 && addMode && s.lastSegmentLength.Some? ==>
      && r.anchors == (if s.lastAddedWithShift == Some(true) then DropFirst(s.anchors) else DropLast(s.anchors))
      && (|r.anchors| > 0 ==> TriangleTracksAnchors(r) && r.lastSegmentLength.None?)
      && (|r.anchors| == 0 ==> r.triangle == s.triangle && r.lastSegmentLength == s.lastSegmentLength)
    ensures r.fromE == s.fromE && r.toS == s.toS && r.prevAnchorCount == s.prevAnchorCount
    ensures r.lastAddedWithShift == s.lastAddedWithShift
    ensures button == 2 && addMode && s.lastSegmentLength.None? ==> r == s.(removeLastAnchor := true)
    ensures button == 2 && addMode && s.lastSegmentLength.Some? ==>
      r.output == (if s.lastAddedWithShift == Some(true) then DropFront(s.output, s.lastSegmentLength.value)
                   else DropBack(s.output, s.lastSegmentLength.value))
    ensures r.triangle.current == s.triangle.current
  {
    if button != 2 || !addMode then s
    else
      var s1 := s.(removeLastAnchor := true);
      match s.lastSegmentLength
      case None => s1
      case Some(n) =>
        var s2 :=
          if s.lastAddedWithShift == Some(true) then
            s1.(anchors := DropFirst(s.anchors), output := DropFront(s.output, n))
          else
            s1.(anchors := DropLast(s.anchors), output := DropBack(s.output, n));
        if |s2.anchors| == 0 then s2
        else s2.(triangle := s2.triangle.(end := s2.anchors[0], start := Last(s2.anchors)), lastSegmentLength := None)
  }

  /** With at least two anchors, once a right click has used the remembered length, a second one removes no output points. */
  lemma SecondRightClickRemovesNothing(s: Session)
    requires s.lastSegmentLength.Some? && |s.anchors| >= 2
    ensures var r := RightClick(RightClick(s, 2, true), 2, true);
      r.output == RightClick(s, 2, true).output && r.anchors == RightClick(s, 2, true).anchors
  {
  }

  /**
   With a single anchor the first right click aborts at `anchors[0]` after cutting
   n output points and keeps the remembered length, so a second right click cuts n
   more points.
   */
  lemma SingleAnchorRightClickCutsTwice(s: Session, n: nat)
    requires |s.anchors| == 1 && s.lastSegmentLength == Some(n) && 0 < n && 2 * n <= |s.output|
    ensures var r1 := RightClick(s, 2, true);
      var r2 := RightClick(r1, 2, true);
      && r1.anchors == [] && r1.lastSegmentLength == Some(n)
      && |r2.output| == |s.output| - 2 * n
  {
  }

  /**
   Take-back round trip: an accepted click that spliced a segment, then a right
   click, then the point napari adds for that right click, give back the session's
   anchors, output, previews and triangle.
   */
  lemma {:induction false} AddThenRightClickRestores(s: Session, p: Point, q: Point, shape: Shape, shift: bool)
    requires Consistent(s) && AcceptsAnchor(s, p, shape) && |s.anchors| > 0
    requires if shift then |s.toS| > 0 else |s.fromE| > 0
    ensures var a := AddAnchor(s, p, shape, shift);
      var b := RightClick(a, 2, true);
      var c := AddAnchor(b, q, shape, shift);
      && b.anchors == s.anchors && b.output == s.output && b.triangle == s.triangle
      && b.removeLastAnchor && b.lastSegmentLength.None?
      && c == s.(prevAnchorCount := |s.anchors| + 1, lastSegmentLength := None, lastAddedWithShift := Some(shift))
  {
    var a := AddAnchor(s, p, shape, shift);
    AcceptedAnchorPlacement(s, p, shape, shift);
    AcceptedAnchorSplice(s, p, shape, shift);
    var n := if shift then |s.toS| else |s.fromE|;
    assert a.lastSegmentLength == Some(n);
    var b := RightClick(a, 2, true);
    if shift {
      assert DropFirst(a.anchors) == s.anchors;
      assert DropFront(a.output, n) == s.output by {
        assert a.output == s.toS + s.output;
      }
    } else {
      assert DropLast(a.anchors) == s.anchors;
      assert DropBack(a.output, n) == s.output by {
        assert a.output == s.output + s.fromE;
      }
    }
    assert b.anchors == s.anchors;
    var c := AddAnchor(b, q, shape, shift);
    assert DropLast(b.anchors + [q]) == s.anchors;
  }

  // ---------------------------------------------------------------------------
  // on_mouse_move
  // ---------------------------------------------------------------------------

  /** `estimate`: the solver runs inside the clipped box around the triangle. */
  function Estimate(t: Triangle, shape: Shape, solve: Solver): Segments {
    solve(SolverBox(t, shape), t)
  }

  /** The straight-line previews of Ctrl mode: cursor-to-start and end-to-cursor. */
  function StraightSegments(t: Triangle, line: LineDrawer): Segments {
    Segments(line(CellOf(t.current), CellOf(t.start)), line(CellOf(t.end), CellOf(t.current)))
  }

  /**
   The guard-and-update part of `on_mouse_move`. Without an image or outside add
   mode nothing happens. Otherwise the cursor always overwrites the triangle's
   middle slot; then, if any triangle coordinate is out of the image, the move
   stops. In bounds, Ctrl draws straight lines and otherwise the solver runs on
   the image or on the custom features (a missing feature image stops the move);
   both results are flipped into `from_e` and `to_s`.
   */
  function MouseMove(s: Session, e: MoveEvent, image: Option<Shape>, source: FeatureSource,
                     solve: Solver, line: LineDrawer): (r: Session)
    ensures image.None? || !e.addMode ==> r == s
    ensures image.Some? && e.addMode ==> r.triangle == s.triangle.(current := e.cursor)
    ensures image.Some? && !TriangleInBounds(r.triangle, image.value) ==> r.fromE == s.fromE && r.toS == s.toS
    ensures r.anchors == s.anchors && r.output == s.output && r.prevAnchorCount == s.prevAnchorCount
    ensures r.lastSegmentLength == s.lastSegmentLength && r.lastAddedWithShift == s.lastAddedWithShift
    ensures r.removeLastAnchor == s.removeLastAnchor
    ensures r.triangle.start == s.triangle.start && r.triangle.end == s.triangle.end
    ensures image.Some? && e.addMode && TriangleInBounds(r.triangle, image.value) && e.ctrl ==>
      var res := StraightSegments(r.triangle, line);
      r.fromE == Reverse(res.first) && r.toS == Reverse(res.second)
    ensures image.Some? && e.addMode && TriangleInBounds(r.triangle, image.value) && !e.ctrl && source.StandardImage? ==>
      var res := Estimate(r.triangle, image.value, solve);
      r.fromE == Reverse(res.first) && r.toS == Reverse(res.second)
    ensures image.Some? && e.addMode && !e.ctrl && source == CustomFeatures(None) ==> r.fromE == s.fromE && r.toS == s.toS
    ensures image.Some? && e.addMode && TriangleInBounds(r.triangle, image.value) && !e.ctrl && source.CustomFeatures?
              && source.features.Some? ==>
      var res := Estimate(r.triangle, source.features.value, solve);
      r.fromE == Reverse(res.first) && r.toS == Reverse(res.second)
  {
    if image.None? || !e.addMode then s
    else
      var t := s.triangle.(current := e.cursor);
      var s1 := s.(triangle := t);
      if !TriangleInBounds(t, image.value) then s1
      else if e.ctrl then
        var res := StraightSegments(t, line);
        s1.(fromE := Reverse(res.first), toS := Reverse(res.second))
      else
        match source
        case CustomFeatures(None) => s1
        case CustomFeatures(Some(fshape)) =>
          var res := Estimate(t, fshape, solve);
          s1.(fromE := Reverse(res.first), toS := Reverse(res.second))
        case StandardImage =>
          var res := Estimate(t, image.value, solve);
          s1.(fromE := Reverse(res.first), toS := Reverse(res.second))
  }

  /** An out-of-bounds triangle makes no solver or line call: the result does not depend on them. */
  lemma OutOfBoundsMoveIgnoresSolver(s: Session, e: MoveEvent, shape: Shape, source: FeatureSource,
                                     solve1: Solver, line1: LineDrawer, solve2: Solver, line2: LineDrawer)
    requires !TriangleInBounds(s.triangle.(current := e.cursor), shape)
    ensures MouseMove(s, e, Some(shape), source, solve1, line1) == MouseMove(s, e, Some(shape), source, solve2, line2)
  {
  }

  /** A cleared session keeps empty previews under any cursor move: its triangle has unset slots. */
  lemma ClearedSessionIgnoresMoves(s: Session, e: MoveEvent, image: Option<Shape>, source: FeatureSource,
                                   solve: Solver, line: LineDrawer)
    ensures var r := MouseMove(ClearAll(s), e, image, source, solve, line);
      r.fromE == [] && r.toS == [] && r.output == []
  {
    if image.Some? {
      UnsetSlotOutOfBounds(ClearAll(s).triangle.(current := e.cursor), image.value);
    }
  }

  /** `skimage.draw.line` runs from its first pixel to its second, both included. */
  ghost predicate DrawsFromTo(line: LineDrawer) {
    forall a, b :: |line(a, b)| > 0 && line(a, b)[0] == CellPoint(a) && Last(line(a, b)) == CellPoint(b)
  }

  /**
   After the flip, the Ctrl-mode previews are oriented for splicing: `from_e` runs
   from the last anchor's pixel to the cursor's, and `to_s` from the cursor's pixel
   to the first anchor's.
   */
  lemma StraightPreviewOrientation(s: Session, e: MoveEvent, shape: Shape, source: FeatureSource,
                                   solve: Solver, line: LineDrawer)
    requires DrawsFromTo(line) && e.addMode && e.ctrl
    requires TriangleInBounds(s.triangle.(current := e.cursor), shape)
    ensures var r := MouseMove(s, e, Some(shape), source, solve, line);
      && |r.fromE| > 0 && r.fromE[0] == CellPoint(CellOf(s.triangle.start)) && Last(r.fromE) == CellPoint(CellOf(e.cursor))
      && |r.toS| > 0 && r.toS[0] == CellPoint(CellOf(e.cursor)) && Last(r.toS) == CellPoint(CellOf(s.triangle.end))
  {
    var t := s.triangle.(current := e.cursor);
    var l1 := line(CellOf(t.current), CellOf(t.start));
    var l2 := line(CellOf(t.end), CellOf(t.current));
    assert |l1| > 0 && |l2| > 0;
  }

  // ---------------------------------------------------------------------------
  // on_double_click
  // ---------------------------------------------------------------------------

  /**
   The closing splice of `on_double_click`. It is the mirror of an anchor add:
   with Shift `from_e` is appended, without it `to_s` is prepended, and an empty
   segment adds nothing. Nothing but the output changes.
   */
  function CloseContour(s: Session, shift: bool): (r: Session)
    ensures |r.output| == |s.output| + (if shift then |s.fromE| else |s.toS|)
    ensures shift ==> r.output[..|s.output|] == s.output && r.output[|s.output|..] == s.fromE
    ensures !shift ==> r.output[..|s.toS|] == s.toS && r.output[|s.toS|..] == s.output
    ensures r == s.(output := r.output)
  {
    if shift && |s.fromE| > 0 then s.(output := s.output + s.fromE)
    else if !shift && |s.toS| > 0 then s.(output := s.toS + s.output)
    else s
  }

  // ---------------------------------------------------------------------------
  // Whole sessions
  // ---------------------------------------------------------------------------

  /** What the session-level handlers see of the widget: image plane, feature source, solver, line drawer. */
  datatype Env = Env(shape: Shape, source: FeatureSource, solve: Solver, line: LineDrawer)

  datatype Event =
    | Click(p: Point, shift: bool)
    | Move(e: MoveEvent)
    | RightPress(button: int, addMode: bool)
    | Escape
    | Close(shift: bool, commits: bool)  // a double click; `commits` says whether the commit check passed

  function Step(s: Session, ev: Event, env: Env): Session {
    match ev
    case Click(p, shift) => AddAnchor(s, p, env.shape, shift)
    case Move(e) => MouseMove(s, e, Some(env.shape), env.source, env.solve, env.line)
    case RightPress(button, addMode) => RightClick(s, button, addMode)
    case Escape => ClearAll(s)
    case Close(shift, commits) =>
      if commits then ClearAll(CloseContour(s, shift)) else CloseContour(s, shift)
  }

  function Run(s: Session, evs: seq<Event>, env: Env): Session
    decreases |evs|
  {
    if |evs| == 0 then s else Run(Step(s, evs[0], env), evs[1..], env)
  }

  lemma StepPreservesConsistent(s: Session, ev: Event, env: Env)
    requires Consistent(s)
    ensures Consistent(Step(s, ev, env))
  {
    match ev
    case Click(p, shift) =>
      var data := s.anchors + [p];
      assert DropLast(data) == s.anchors;
    case Move(e) =>
    case RightPress(button, addMode) =>
    case Escape =>
    case Close(shift, commits) =>
  }

  /** Every session reachable from the initial one by clicks, moves, right clicks, Escape and double clicks is consistent. */
  lemma {:induction false} RunPreservesConsistent(s: Session, evs: seq<Event>, env: Env)
    requires Consistent(s)
    ensures Consistent(Run(s, evs, env))
    decreases |evs|
  {
    if |evs| > 0 {
      StepPreservesConsistent(s, evs[0], env);
      RunPreservesConsistent(Step(s, evs[0], env), evs[1..], env);
    }
  }

  /**
   Because the point count is recorded before the duplicate check, a dropped
   duplicate leaves the recorded count one above the anchors. A right click that
   then takes back the last plain splice, followed by the point napari adds for
   it and one ordinary click, is read as a deleted point and clears the whole
   session, although the user deleted nothing.
   */
  lemma {:induction false} DuplicateThenTakeBackClearsSession(s: Session, dup: Point, echo: Point, next: Point,
                                                             shape: Shape, shift: bool)
    requires !s.removeLastAnchor && |s.anchors| >= 2 && s.prevAnchorCount == |s.anchors|
    requires s.lastSegmentLength.Some? && s.lastAddedWithShift == Some(false)
    requires SameAfterRounding(ClipPoint(dup, shape), Last(s.anchors))
    ensures var s4 := AddAnchor(s, dup, shape, shift);
      var s6 := AddAnchor(RightClick(s4, 2, true), echo, shape, shift);
      var s7 := AddAnchor(s6, next, shape, false);
      && s4.anchors == s.anchors && s4.prevAnchorCount == |s.anchors| + 1
      && s6.anchors == DropLast(s.anchors) && s6.prevAnchorCount == |s.anchors| + 1
      && s7.anchors == [] && s7.output == [] && s7.triangle == UnsetTriangle
  {
    DuplicateAnchorDropped(s, dup, shape, shift);
    var s4 := AddAnchor(s, dup, shape, shift);
    var s5 := RightClick(s4, 2, true);
    assert s5.anchors == DropLast(s.anchors) && s5.removeLastAnchor;
    assert DropLast(s5.anchors + [echo]) == s5.anchors;
    var s6 := AddAnchor(s5, echo, shape, shift);
    ShrinkClearsSession(s6, s6.anchors + [next], shape, false);
  }

  lemma InitialConsistent()
    ensures Consistent(Initial) && Initial == ClearAll(Initial)
  {
  }
}

=== FILE: widget.dfy ===
/**
 The commit path of the minimal-contour widget: the double click that closes the
 contour, the preconditions `points_to_mask` checks before rasterising it, and
 the hand-over of the mask to the undo ledger, after which the session is cleared.

 Rasterisation (`polygon2mask`) and Fourier smoothing are parameters; the worker
 thread that runs the rasteriser is modelled as a synchronous call.
 */
module ContourWidget {
  import opened Wrappers
  import opened Geometry
  import opened ContourSession
  import opened LabelLedger

  /** The working image `_img`: its plane (height, width) and its channel count. */
  datatype Image = Image(height: nat, width: nat, channels: nat)

  function Plane(img: Image): Shape {
    Shape(img.height, img.width)
  }

  /** The shape of the working image array, `_img.shape`. */
  function WorkingShape(img: Image): seq<nat> {
    [img.height, img.width, img.channels]
  }

  /**
   The working image `set_image` builds from the displayed slice: a 2-D slice is
   stacked into three channels, an RGB(A) slice keeps its own. Either way the array
   has a channel axis and its plane is the slice's first two dimensions.
   */
  function WorkingImage(viewShape: seq<nat>): (img: Image)
    requires |viewShape| == 2 || |viewShape| == 3
    ensures |WorkingShape(img)| == 3 && WorkingShape(img)[..2] == viewShape[..2]
    ensures |viewShape| == 3 ==> WorkingShape(img) == viewShape
    ensures |viewShape| == 2 ==> img.channels == 3
  {
    if |viewShape| == 2 then Image(viewShape[0], viewShape[1], 3)
    else Image(viewShape[0], viewShape[1], viewShape[2])
  }

  // ---------------------------------------------------------------------------
  // The shape check of points_to_mask
  // ---------------------------------------------------------------------------

  /** The shape check as written: the labels array's whole shape against the working image's. */
  predicate ShapesMatchAsWritten(layer: LabelsLayer, img: Image) {
    layer.dataShape == WorkingShape(img)
  }

  /**
   As written, the check refuses every 2-D labels layer, even one of exactly the
   image's height and width: the working image always carries a channel axis.
   */
  lemma AsWrittenRefusesMatchingLayer(layer: LabelsLayer, h: nat, w: nat)
    requires layer.dataShape == [h, w]
    ensures !ShapesMatchAsWritten(layer, WorkingImage([h, w]))
    ensures forall img: Image :: !ShapesMatchAsWritten(layer, img)
  {
  }

  /** The corrected check: the labels layer's displayed slice has the image plane's shape. */
  predicate ShapesMatch(layer: LabelsLayer, v: View, img: Image)
    requires ViewFits(v, layer.dataShape)
  {
    SliceShape(layer, v) == Plane(img)
  }

  /**
   The corrected check admits a 2-D labels layer of the image's height and width
   under any view that displays its axes in order (row axis before column axis),
   and every in-image point then falls on a pixel of the mask the rasteriser is
   asked for.
   */
  lemma CorrectedCheckAdmitsMatchingLayer(layer: LabelsLayer, h: nat, w: nat, v: View, p: Point)
    requires layer.dataShape == [h, w] && ViewFits(v, [h, w]) && v.rowAxis < v.colAxis
    ensures ShapesMatch(layer, v, WorkingImage([h, w]))
    ensures InPlane(p, Plane(WorkingImage([h, w]))) ==> InGrid(CellOf(p), SliceShape(layer, v))
  {
  }

  /** Whenever the corrected check holds, the image's pixels are exactly the mask's pixels. */
  lemma CorrectedCheckAlignsGrids(layer: LabelsLayer, v: View, img: Image, c: Cell)
    requires ViewFits(v, layer.dataShape) && ShapesMatch(layer, v, img)
    ensures InGrid(c, Plane(img)) <==> InGrid(c, SliceShape(layer, v))
  {
  }

  datatype CommitCheck = Proceed | NoContour | MissingLabels | ShapeMismatch

  /**
   The preconditions of `points_to_mask`, in the source's order: no image or an
   empty contour skips silently; then a missing labels layer, then a shape mismatch
   (the corrected comparison) are reported.
   */
  function CheckCommit(image: Option<Image>, contour: seq<Point>, labels: Option<LabelsLayer>, v: View): (r: CommitCheck)
    requires labels.Some? ==> ViewFits(v, labels.value.dataShape)
    ensures r == NoContour <==> image.None? || |contour| == 0
    ensures r == MissingLabels <==> image.Some? && |contour| > 0 && labels.None?
    ensures r == Proceed <==> image.Some? && |contour| > 0 && labels.Some? && ShapesMatch(labels.value, v, image.value)
  {
    if image.None? || |contour| == 0 then NoContour
    else if labels.None? then MissingLabels
    else if !ShapesMatch(labels.value, v, image.value) then ShapeMismatch
    else Proceed
  }

  // ---------------------------------------------------------------------------
  // on_double_click
  // ---------------------------------------------------------------------------

  datatype Widget = Widget(session: Session, labels: Option<LabelsLayer>, ledger: Ledger)

  /** Fourier smoothing of the whole contour. */
  type Smoother = seq<Point> -> seq<Point>

  /** `smooth_fourier` ends in `irfft(..., len(points))`: it returns as many points as it gets. */
  ghost predicate KeepsLength(smooth: Smoother) {
    forall c :: |smooth(c)| == |c|
  }

  /** `polygon2mask`: the pixels of a grid of the given shape inside the polygon. */
  type Rasterizer = (Shape, seq<Point>) -> set<Cell>

  /** `polygon2mask` returns a mask of the requested shape. */
  ghost predicate RasterizesInside(rasterize: Rasterizer) {
    forall sh, poly, c :: c in rasterize(sh, poly) ==> InGrid(c, sh)
  }

  /** The contour `on_double_click` hands to `points_to_mask`: closed, then optionally smoothed. */
  function CommittedContour(s: Session, shift: bool, smoothing: bool, smooth: Smoother): seq<Point> {
    var closed := CloseContour(s, shift).output;
    if smoothing then smooth(closed) else closed
  }

  lemma MaskFitsLayer(layer: LabelsLayer, v: View, mask: set<Cell>)
    requires CoversSlice(layer, v)
    requires forall c :: c in mask ==> InGrid(c, SliceShape(layer, v))
    ensures forall c :: c in mask ==> Embed(v, c) in layer.data
  {
    forall c | c in mask
      ensures Embed(v, c) in layer.data
    {
      assert c == Cell(c.row, c.col);
    }
  }

  /**
   `on_double_click` through `points_to_mask` and the worker to `set_mask`. If the
   checks pass, the mask of the contour is committed to the labels layer through
   the ledger and the session is cleared; otherwise labels and ledger are untouched
   and the session keeps its anchors with the closed (and smoothed) contour. The
   smoother keeps the point count, so an empty closed contour never commits.
   */
  function DoubleClick(w: Widget, shift: bool, smoothing: bool, smooth: Smoother, image: Option<Image>,
                       v: View, rasterize: Rasterizer, autoIncrement: bool): (r: Widget)
    requires w.labels.Some? ==> CoversSlice(w.labels.value, v)
    requires RasterizesInside(rasterize) && KeepsLength(smooth)
    ensures |CloseContour(w.session, shift).output| == 0 ==> r.labels == w.labels && r.ledger == w.ledger
    ensures var contour := CommittedContour(w.session, shift, smoothing, smooth);
      CheckCommit(image, contour, w.labels, v) != Proceed ==>
        r == Widget(w.session.(output := contour), w.labels, w.ledger)
    ensures var contour := CommittedContour(w.session, shift, smoothing, smooth);
      CheckCommit(image, contour, w.labels, v) == Proceed ==>
        var L := w.labels.value;
        var mask := rasterize(SliceShape(L, v), contour);
        && r.session == ClearAll(w.session)
        && r.labels.Some? && r.labels.value.id == L.id
        && L.id in r.ledger && r.ledger[L.id].Keys == MaskIndices(mask, v)
        && r.labels.value.data.Keys == L.data.Keys
        && (forall c :: c in mask ==> Embed(v, c) in L.data && r.labels.value.data[Embed(v, c)] == L.selectedLabel)
        && r.labels.value.selectedLabel == (if autoIncrement then L.selectedLabel + 1 else L.selectedLabel)
        && (r.labels.value, r.ledger) == SetMask(L, w.ledger, mask, v, autoIncrement)
  {
    var contour := CommittedContour(w.session, shift, smoothing, smooth);
    var s := w.session.(output := contour);
    if CheckCommit(image, contour, w.labels, v) == Proceed then
      var L := w.labels.value;
      var mask := rasterize(SliceShape(L, v), contour);
      MaskFitsLayer(L, v, mask);
      var (L', ledger') := SetMask(L, w.ledger, mask, v, autoIncrement);
      Widget(ClearAll(s), Some(L'), ledger')
    else
      Widget(s, w.labels, w.ledger)
  }

  /**
   Commit then Ctrl+Z: after a double click that committed, the undo finds the
   record, puts every label value back and drops the record; a second undo has
   nothing to revert.
   */
  lemma {:induction false} DoubleClickThenUndoRestoresLabels(w: Widget, shift: bool, smoothing: bool, smooth: Smoother,
                                                            image: Option<Image>, v: View, rasterize: Rasterizer,
                                                            autoIncrement: bool)
    requires w.labels.Some? ==> CoversSlice(w.labels.value, v)
    requires RasterizesInside(rasterize) && KeepsLength(smooth)
    requires CheckCommit(image, CommittedContour(w.session, shift, smoothing, smooth), w.labels, v) == Proceed
    ensures var r := DoubleClick(w, shift, smoothing, smooth, image, v, rasterize, autoIncrement);
      var u := Undo(r.labels, r.ledger);
      && u.Reverted?
      && u.layer.data == w.labels.value.data
      && u.ledger == w.ledger - {w.labels.value.id}
      && Undo(Some(u.layer), u.ledger) == NothingToRevert
  {
    var contour := CommittedContour(w.session, shift, smoothing, smooth);
    var L := w.labels.value;
    var mask := rasterize(SliceShape(L, v), contour);
    MaskFitsLayer(L, v, mask);
    UndoRestoresCommit(L, w.ledger, mask, v, autoIncrement);
  }
}

=== FILE: wrappers.dfy ===
/** The optional-value type used for the widget's nullable fields (Python's `None`). */
module Wrappers {

  datatype Option<+T> = None | Some(value: T)
}
